=== FILE: README.md ===
# crm-salomao core logic, modelled in Dafny

This project models four pieces of pure logic from the React front end of the Salomão
law-firm CRM. Each piece is stated as functions over immutable values, and the project
proves the properties the screens rely on.

- **Incomplete-record queue** (`IncompleteClients.tsx`). Twelve fields are required. A
  client record is *pending* when one of them is empty and its label is not in the
  record's `ignored_fields` waiver list. The model covers the queue, the "Falta:" badges,
  and the "Ignorar" action that adds the currently empty fields to `ignored_fields`.
- **Client list** (`Clients.tsx`). The dashboard's exact-match filters on partner
  (`socio`) and gift tier (`tipo_brinde`) run in the storage query. A case-insensitive
  substring search then runs over six columns in memory.
- **Attendance import** (`collaborators/Presencial.tsx`). For each spreadsheet row, the
  name and time columns are found by a priority list of header synonyms. A record is
  built per row. Rows with no name are dropped, and the import either aborts or inserts
  the rest and reports their count.
- **Magistrates PIN gate** (`Magistrados.tsx`). An e-mail allow-list check, a four-slot
  PIN entry, verification against the stored PIN, locking, and the choice between the
  denial screen, the PIN screen and the protected list.

Modules:

- `Wrappers`: `Option`.
- `Text`: JavaScript's `trim`, `toLowerCase` and `includes`.
- `Seqs`: `filter`, `map`, `[...new Set(xs)]`, and the subsequence and no-duplicates facts about them.
- `Records`: column values, JavaScript falsiness, and the client record.
- `Incomplete`, `Clients`, `Presencial`, `Magistrados`: one module per component.

Storage, authentication and the spreadsheet codec are not modelled. Whatever they return
is a parameter, and whatever they are asked to write is a returned value.

In `IncompleteClients.tsx` the badges (line 112) and "Ignorar" (line 81) test only falsiness, while the queue (line 39) also trims.

## Model

| member | source | states |
|---|---|---|
| Incomplete.SchemaWellFormed | src/components/IncompleteClients.tsx:13-26 | The required-field schema has twelve entries, with distinct keys and distinct labels. |
| Incomplete.SomePending | src/components/IncompleteClients.tsx:37-42 | The `some` scan is true iff some schema entry is blank (falsy, or only whitespace after trim) and its label is not waived. |
| Incomplete.HasMissing | src/components/IncompleteClients.tsx:37-42 | `hasMissing` holds iff some required field is blank after trimming and its label is not waived. |
| Incomplete.Queue | src/components/IncompleteClients.tsx:33-46 | The queue is a subsequence of the fetched records: same order, records unchanged. A record is in it iff it is fetched and has a pending field. |
| Incomplete.QueueMembership | src/components/IncompleteClients.tsx:33-45 | A record is queued iff some required field is falsy or whitespace-only and its label is not in `ignored_fields`. |
| Incomplete.Badges | src/components/IncompleteClients.tsx:111-113 | A label has a badge iff its field is falsy (no trimming) and the label is not waived. Badges follow schema order and have no duplicates. |
| Incomplete.IgnoreTargets | src/components/IncompleteClients.tsx:80-82 | "Ignorar" targets exactly the labels of required fields whose value is falsy. |
| Incomplete.NewIgnored | src/components/IncompleteClients.tsx:84-85 | The new waiver list holds every old entry and every falsy field's label, and nothing else. It has no duplicates and starts with the old entries, deduplicated, in first-occurrence order. |
| Incomplete.HandleIgnore | src/components/IncompleteClients.tsx:77-90 | Declining the confirmation produces no write. Confirming produces one write, keyed by the record's id, that carries only the new `ignored_fields`. |
| Incomplete.ApplyWrite | src/components/IncompleteClients.tsx:87-90 | The write changes only `ignored_fields`, and only on rows with the given id. Every other column and row stays as it was. |
| Incomplete.Ignored | src/components/IncompleteClients.tsx:87-90 | The record stored after "Ignorar" keeps its id and all its columns. |
| Incomplete.QueuedAfterIgnoreIff | src/components/IncompleteClients.tsx:33-45 | After "Ignorar" the stored record is still queued iff one of its required fields holds non-empty whitespace only and was not waived before. |
| Incomplete.WriteStoresIgnored | src/components/IncompleteClients.tsx:87-90 | After the write, the table holds the ignored record in place of the fetched one and still holds every row with another id. |
| Incomplete.QueueAfterIgnore | src/components/IncompleteClients.tsx:78-92 | The displayed queue stays as it was when the user declines or the write fails. After a successful write and refetch, the record is queued again iff a required field holds whitespace only and was not waived before. Every record with another id is queued iff it has a pending field, as before. |
| Incomplete.IgnoreClearsBadges | src/components/IncompleteClients.tsx:80-113 | Right after "Ignorar", the record shows no badge. |
| Incomplete.IgnoreIdempotent | src/components/IncompleteClients.tsx:85 | Repeating "Ignorar" on the stored record writes the same list again. |
| Incomplete.AbsentIgnoredIsEmpty | src/components/IncompleteClients.tsx:34 | A null `ignored_fields` behaves exactly like an empty list, for the queue, the badges and "Ignorar" (lines 34, 84, 112). |
| Incomplete.WhitespaceFieldKeepsRecordQueued | src/components/IncompleteClients.tsx:39-81 | Suppose a required field is whitespace-only and not waived. After "Ignorar" the record is still queued, but it shows no badge. |
| Incomplete.WhitespaceCityBefore | src/components/IncompleteClients.tsx:33-45 | Sample record: before "Ignorar" it is queued and shows badges. |
| Incomplete.WhitespaceCityAfter | src/components/IncompleteClients.tsx:80-85 | Sample record, city `"   "`: after "Ignorar" it is still queued and shows no badge. |
| Incomplete.BlankTargets | src/components/IncompleteClients.tsx:39 | Corrected waiver targets: exactly the labels of the fields the queue treats as empty. |
| Incomplete.IgnoredCorrected | src/components/IncompleteClients.tsx:84-85 | The corrected write keeps the id, the columns and every old waiver. |
| Incomplete.IgnoreCorrectedClearsQueue | src/components/IncompleteClients.tsx:33-45 | With the corrected waiver, the record leaves the queue and shows no badge. |
| Seqs.UnionList | src/components/IncompleteClients.tsx:85 | `[...new Set([...a, ...b])]` holds exactly the elements of `a` and `b`, each once. It begins with `a` deduplicated. |
| Seqs.UnionListIdempotent | src/components/IncompleteClients.tsx:85 | Taking the union with the same extra labels twice gives the same list as taking it once. |
| Text.Trim | src/components/IncompleteClients.tsx:39 | `trim()` returns a contiguous piece `s[a..b]` of its input, and everything before `a` and after `b` is whitespace. The piece neither starts nor ends with whitespace. It is empty iff the input is entirely JavaScript whitespace. |
| Text.Lower | src/components/Clients.tsx:87-96 | `toLowerCase()` keeps the length and maps each character on its own. Lowering twice is lowering once (`Text.LowerIdempotent`). |
| Text.Includes | src/components/Clients.tsx:90-95 | `includes` holds when the needle is a prefix. It never holds for a needle longer than the haystack. |
| Text.IncludesAt | src/components/Clients.tsx:90-95 | `hay.includes(needle)` holds iff `needle` starts at some position of `hay`. |
| Text.Utf16Length | src/components/Magistrados.tsx:37 | `value.length` counts UTF-16 code units. It lies between the character count and twice that, and equals the character count iff no character is outside the Basic Multilingual Plane. |
| Seqs.Dedupe | src/components/IncompleteClients.tsx:85 | `[...new Set(s)]` is a subsequence of `s` with the same elements and no duplicates. The elements come in order of first occurrence: each one occurs in `s` before every occurrence of any later one. |
| Seqs.Filter | src/components/collaborators/Presencial.tsx:96 | `.filter(p)` returns a subsequence of its input, in order, holding exactly the elements that pass. The same operation appears at `IncompleteClients.tsx` lines 33, 81 and 112 and `Clients.tsx` line 85. |
| Seqs.FilterCounts | src/components/collaborators/Presencial.tsx:96 | `.filter(p)` keeps every copy of an element that passes and drops every copy of one that fails. |
| Seqs.Map | src/components/collaborators/Presencial.tsx:69 | `.map(f)` keeps the length and applies `f` at every position. The same operation appears at `IncompleteClients.tsx` lines 82 and 113. |
| Seqs.FirstFrom | src/components/collaborators/Presencial.tsx:42 | The search for the first passing element returns the first passing position, or nothing iff no element passes. `find` at lines 42 and 46 is built on it. |
| Records.Lookup | src/components/IncompleteClients.tsx:38 | `c[field.key]` reads the column when it is present, and `undefined` (`Null`) when it is absent. |
| Records.IgnoredOf | src/components/IncompleteClients.tsx:34 | The waiver list read with a `[]` fallback is the stored list when there is one, and `[]` when the column is null (also at lines 84 and 112). |
| Records.Falsy | src/components/IncompleteClients.tsx:81 | `!value` holds exactly for null or undefined, `''`, `0` and `false`. |
| Records.IsBlank | src/components/IncompleteClients.tsx:39 | The test `!value` or `value.toString().trim() === ''` holds iff the value is falsy or whitespace-only text. It is implied by falsiness, and a blank value that is not falsy is non-empty whitespace-only text. |
| Clients.FetchClients | src/components/Clients.tsx:27-35 | The query returns a subsequence of the table: exactly the rows that pass the dashboard conditions. |
| Clients.NoFilterKeepsAll | src/components/Clients.tsx:30-31 | An absent or empty dashboard filter restricts nothing. |
| Clients.FiltersAreConjunctive | src/components/Clients.tsx:30-31 | Both filters together give the partner-filtered rows that also pass the gift-tier filter, in the same order. Membership is the intersection of the single-filter results. |
| Clients.FilteredClients | src/components/Clients.tsx:85-97 | The search result is a subsequence of the loaded clients: exactly the ones that match. |
| Clients.LoweredField | src/components/Clients.tsx:90-95 | A searched column read with `?.toLowerCase()` and an `''` fallback has the column's length for text, is `''` for anything else, and is already lowercase. |
| Clients.MatchesSearch | src/components/Clients.tsx:86-96 | An empty term matches every client. A non-empty term matches only through a text column among the six that is at least as long as the term. |
| Clients.MatchesSearchMeans | src/components/Clients.tsx:86-96 | A client matches iff the term is empty, or one of `nome`, `empresa`, `email`, `cargo`, `cidade`, `socio`, lowercased, contains the lowercased term. |
| Clients.EmptyTermKeepsAll | src/components/Clients.tsx:86 | An empty search term returns every loaded client. |
| Clients.NullFieldNeverMatches | src/components/Clients.tsx:90-95 | A null or absent column reads as `''`, which never contains a non-empty term. |
| Clients.SearchSeesOnlySixFields | src/components/Clients.tsx:89-96 | Two clients that agree on the six searched columns match the same terms. Other columns such as `telefone` or `estado` never matter. |
| Clients.SearchIgnoresCase | src/components/Clients.tsx:87 | Terms that differ only in letter case select the same clients. |
| Clients.SearchMonotone | src/components/Clients.tsx:89-96 | If `t` is a substring of `t'`, the result for `t'` is a subsequence of the result for `t`. |
| Clients.ToggleSearch | src/components/Clients.tsx:123-125 | The search button flips the panel. Closing it clears the term; opening it keeps the term. |
| Clients.ClosingSearchShowsAll | src/components/Clients.tsx:123-125 | After the open panel is closed, every loaded client is listed. |
| Clients.VisibleClients | src/components/Clients.tsx:85-97 | The list shows a subsequence of the table: exactly the rows that pass both the dashboard filters and the search. |
| Presencial.NormalizeKey | src/components/collaborators/Presencial.tsx:41 | A normalised header is no longer than the header and is already lowercase. It is empty iff the header is all whitespace. |
| Presencial.HasColumn | src/components/collaborators/Presencial.tsx:41-42 | `rowKeys.includes(candidate.toLowerCase())` holds iff the scan for a header normalising to the lowered candidate finds one. |
| Presencial.FirstCandidateFrom | src/components/collaborators/Presencial.tsx:42 | The scan picks the first candidate that has a column; it finds none iff no candidate has one. |
| Presencial.FirstColumnFrom | src/components/collaborators/Presencial.tsx:46 | The scan picks the leftmost header that normalises to the target; it finds none iff no header does. |
| Presencial.FindValue | src/components/collaborators/Presencial.tsx:40-50 | With no candidate matching any trimmed, lowercased header, the lookup is null. A non-null result is a cell of the row. |
| Presencial.FindValuePriority | src/components/collaborators/Presencial.tsx:41-47 | The earliest candidate that has a column decides, wherever that column sits. Among headers that normalise alike, the leftmost gives the value. |
| Presencial.EmptyCandidateYieldsNull | src/components/collaborators/Presencial.tsx:44 | A winning empty candidate is falsy, so the lookup is null even if a later candidate has a column. |
| Presencial.MatchedHeaderNonEmpty | src/components/collaborators/Presencial.tsx:46-47 | A header matching a non-empty candidate is non-empty, so the `originalKey ?` guard never yields null. |
| Presencial.NameOf | src/components/collaborators/Presencial.tsx:71 | The name is never falsy. It is `'Desconhecido'` iff the lookup gave a falsy value or literally `'Desconhecido'`; otherwise it is the looked-up cell. |
| Presencial.TimeOf | src/components/collaborators/Presencial.tsx:74-90 | The time is the parsed date or one of the row's two clock readings. A null, empty or boolean cell gives the reading taken at the start of the row (line 76). A non-empty string or a number is parsed: a valid date is used, and an invalid one gives the second reading (line 90). |
| Presencial.ToRecord | src/components/collaborators/Presencial.tsx:88-92 | Every mapped record carries the file name as `arquivo_origem`, plus the row's name and time. |
| Presencial.ToRecords | src/components/collaborators/Presencial.tsx:69-93 | One record per row, in row order, each built with that row's own clock readings. |
| Presencial.RowsWithoutTimeReadTheirOwnClock | src/components/collaborators/Presencial.tsx:69-76 | Two rows with no time cell are stamped with their own start readings, so their records differ when the clock moved between the two callbacks. |
| Presencial.ValidRecords | src/components/collaborators/Presencial.tsx:96 | `validRecords` is a subsequence of the mapped records: exactly those not named `'Desconhecido'`. Every copy is kept, so two rows that map to the same record are both inserted. |
| Presencial.ImportRows | src/components/collaborators/Presencial.tsx:96-109 | The import aborts iff no row keeps a name. A failed insert reports nothing. A success reports a positive count equal to the number of records inserted, which are a subsequence of the mapped records. |
| Presencial.NoValidRecordIffNoKeptRow | src/components/collaborators/Presencial.tsx:96-102 | Nothing is left to insert iff no row has a usable name. |
| Presencial.ImportedCountIsKeptRows | src/components/collaborators/Presencial.tsx:105-109 | On success, the inserted list is exactly the records of the rows that keep a name, in row order. The count is the number of those rows. |
| Presencial.ValidRecordsAreNamedAndTagged | src/components/collaborators/Presencial.tsx:88-96 | Every record offered for insertion has a truthy name other than the placeholder and carries the file name. |
| Presencial.PlaceholderNameIsDropped | src/components/collaborators/Presencial.tsx:96 | A row whose name cell literally reads `Desconhecido` is dropped, like a nameless row. |
| Magistrados.CheckPermission | src/components/Magistrados.tsx:18-34 | Loading ends. With a non-empty e-mail, access becomes "e-mail is in `emails_permitidos`", and a missing list counts as empty. Without an e-mail, access and the shown e-mail stay as they were. |
| Magistrados.AccessOnlyForListedEmail | src/components/Magistrados.tsx:22-31 | From the mount state, access is granted iff the user has an e-mail and it is on an existing list. |
| Magistrados.HandlePinChange | src/components/Magistrados.tsx:36-40 | Input whose `length` exceeds one UTF-16 code unit changes nothing. Otherwise only the slot at `index` takes the value: the other slots, the length and the rest of the state are unchanged. |
| Magistrados.AstralCharacterIsRejected | src/components/Magistrados.tsx:37 | A single character outside the Basic Multilingual Plane has `length` 2, so it is rejected and the state is unchanged. |
| Magistrados.Join | src/components/Magistrados.tsx:48 | `pinInput.join('')` is empty iff every slot is empty, and begins with the first slot. |
| Magistrados.VerifyPin | src/components/Magistrados.tsx:46-58 | The PIN is correct iff it already was or the joined slots equal the stored PIN. A missing configuration means failure. On failure the message is `'PIN Incorreto.'`, the slots are reset, and `isPinCorrect` is unchanged. |
| Magistrados.HandleLock | src/components/Magistrados.tsx:60-64 | Locking clears the PIN and the message and unsets `isPinCorrect`. Access and loading are unchanged. |
| Magistrados.TransitionsKeepWellFormed | src/components/Magistrados.tsx:10-64 | Every transition keeps four PIN slots of at most one UTF-16 code unit each. |
| Magistrados.JoinLength | src/components/Magistrados.tsx:48 | The joined PIN is at most as long as the number of slots, and exactly as long iff every slot is filled. |
| Magistrados.FourDigitPinNeedsFullEntry | src/components/Magistrados.tsx:48-52 | A four-character stored PIN is accepted only when all four slots are filled. |
| Magistrados.Render | src/components/Magistrados.tsx:71-187 | Not loading and no access gives the denial screen. Not loading, access and no correct PIN gives the PIN screen. Otherwise the protected list is shown, including whenever loading is true. |
| Magistrados.ProtectedShownWhileLoading | src/components/Magistrados.tsx:7-9 | The mount state has neither access nor a correct PIN, yet it renders the protected list. |
| Magistrados.RenderGuarded | src/components/Magistrados.tsx:71-84 | Corrected choice: a waiting screen iff loading. The content is shown iff loading is over, access was granted and the PIN is correct. |
| Magistrados.GuardedContentNeedsAccessAndPin | src/components/Magistrados.tsx:46-84 | Corrected choice: nothing is shown at mount. After a verification, the content shows iff loading is over, access was granted, and the PIN was already correct or matches the stored one. |

## Left out

- Storage and authentication calls are not modelled: `select`, `insert`, `update`, `delete`, `auth.getUser`. What they return is a parameter, and what they write is a returned value.
- Row order from `order('created_at', …)` and `order('data_hora', …)` is not modelled. The table is taken as a sequence in the order storage returns it.
- Storage plumbing and UI state are not modelled:
  - In `Clients.tsx`: `handleSave` (an insert, or an update keyed by e-mail), `handleDelete` (a delete keyed by e-mail), `openEditModal` and `openNewModal`.
  - In `IncompleteClients.tsx`: `handleEdit` and `handleSave`.
  - In `collaborators/Presencial.tsx`: `fetchRecords` and `handleClearHistory`.
  - The modal open/close state.
- Rendering is not modelled: JSX, styling, focus moves and the `setTimeout` in `handleLock`.
- Not modelled: the XLSX codec, `FileReader`, and the reader's `catch` for undecodable files. The import starts from decoded rows, given in `Object.keys` order.
- Date construction is the `parse` parameter. This covers strings and the Excel-serial arithmetic. Date display formatting is not modelled.
- The clock is not modelled: each row comes with the two readings its callback takes (`new Date()` at line 76 and, for an invalid date, at line 90), and any values may be given.
- Numbers are integers: NaN, -0 and fractional values are not modelled.
- Column values are null, strings, numbers and booleans. Objects, arrays and `Date` cells are not modelled: the queue and search read scalar table columns, and `sheet_to_json` yields `Date` cells only when asked to.
- `toLowerCase` is modelled for ASCII and Latin-1 capitals only. Other characters are left unchanged.
- Clients.LoweredField: a number or boolean stored in one of the six searched columns would make `toLowerCase` throw in the source. The model reads such a value as `''`, and `Clients.MatchesSearch` inherits this.
- The intermediate `setLoading(true)` at the start of `checkPermission` is not modelled. `CheckPermission` is the state once both lookups have answered; at mount, `loading` is already true.
- `Magistrados.tsx` line 186 passes `tableName="magistrados"` to `Clients`. `Clients` does not declare that prop (lines 11-13) and always queries `clientes` (line 27). The protected screen therefore lists the ordinary client table. The model records this but does not model the prop.
- `Sidebar.tsx` and `App.tsx` are presentational and are not modelled.
- Not in the component, so not modelled: dismissing a single field, sorting the incomplete queue, spreadsheet export and printing.

## Findings

| source | as written | input that shows it | evidently intended | confidence | as-written member | corrected member |
|---|---|---|---|---|---|---|
| src/components/IncompleteClients.tsx:80-82 | "Ignorar" waives only falsy fields. The queue (line 39) also treats whitespace-only strings as empty. | A client whose `cidade` is `"   "`, with nothing waived. After "Ignorar" it is still queued but shows no badge, and pressing "Ignorar" again changes nothing. | Waive every field the queue treats as empty, so the record leaves the queue. | high, not executed | Incomplete.WhitespaceCityAfter | Incomplete.IgnoreCorrectedClearsQueue |
| src/components/Magistrados.tsx:72-84 | Both guards require `!loading`, so while loading the render falls through to the protected list. | The mount state: `loading` true, no access, no PIN. The magistrates screen and its client list are rendered before the permission check answers. | Show a neutral waiting screen while loading, and show the content only after access and the PIN are confirmed. | high, not executed | Magistrados.ProtectedShownWhileLoading | Magistrados.GuardedContentNeedsAccessAndPin |

=== FILE: clients.dfy ===
/** The client list of `Clients.tsx`: the equality filters handed down by the dashboard,
    which the storage query applies, and the free-text search applied in memory. */
module Clients {
  import opened Wrappers
  import opened Text
  import opened Seqs
  import opened Records

  // ---------------------------------------------------------------- dashboard filters

  /** `initialFilters`: an optional partner (`socio`) and an optional gift tier (`brinde`). */
  datatype DashboardFilters = DashboardFilters(socio: Option<string>, brinde: Option<string>)

  /** `if (initialFilters?.x)`: a filter takes part only when present and non-empty. */
  predicate Applies(o: Option<string>) {
    o.Some? && o.value != ""
  }

  /** One `.eq(column, value)` condition, or no condition when the filter does not apply. */
  predicate PassesEq(c: Client, column: string, o: Option<string>) {
    Applies(o) ==> Field(c, column) == Text(o.value)
  }

  /** The conditions `fetchClients` adds to the query. */
  predicate MatchesDashboard(filters: Option<DashboardFilters>, c: Client) {
    match filters
    case None => true
    case Some(f) => PassesEq(c, "socio", f.socio) && PassesEq(c, "tipo_brinde", f.brinde)
  }

  /** The rows the query returns, in the order storage delivers them. */
  function FetchClients(table: seq<Client>, filters: Option<DashboardFilters>): (r: seq<Client>)
    ensures IsSubsequence(r, table)
    ensures forall c :: c in r <==> c in table && MatchesDashboard(filters, c)
  {
    Filter((c: Client) => MatchesDashboard(filters, c), table)
  }

  /** Absent or empty filters restrict nothing. */
  lemma NoFilterKeepsAll(table: seq<Client>, f: DashboardFilters)
    requires !Applies(f.socio) && !Applies(f.brinde)
    ensures FetchClients(table, None) == table
    ensures FetchClients(table, Some(f)) == table
  {
    FilterKeepsAll((c: Client) => MatchesDashboard(None, c), table);
    FilterKeepsAll((c: Client) => MatchesDashboard(Some(f), c), table);
  }

  /** Both filters together give exactly the partner-filtered rows that also pass the
      gift-tier filter, in the same order; membership is the intersection. */
  lemma FiltersAreConjunctive(table: seq<Client>, socio: Option<string>, brinde: Option<string>)
    ensures FetchClients(table, Some(DashboardFilters(socio, brinde))) ==
            Filter((c: Client) => MatchesDashboard(Some(DashboardFilters(None, brinde)), c),
                   FetchClients(table, Some(DashboardFilters(socio, None))))
    ensures forall c :: c in FetchClients(table, Some(DashboardFilters(socio, brinde))) <==>
            c in FetchClients(table, Some(DashboardFilters(socio, None))) &&
            c in FetchClients(table, Some(DashboardFilters(None, brinde)))
  {
    FilterFilter((c: Client) => MatchesDashboard(Some(DashboardFilters(socio, None)), c),
                 (c: Client) => MatchesDashboard(Some(DashboardFilters(None, brinde)), c),
                 (c: Client) => MatchesDashboard(Some(DashboardFilters(socio, brinde)), c),
                 table);
  }

  // ---------------------------------------------------------------- free-text search

  /** The six columns the search looks at, in the order the source tests them. */
  const SearchFields: seq<string> := ["nome", "empresa", "email", "cargo", "cidade", "socio"]

  /** `client.key?.toLowerCase() || ''`. */
  function LoweredField(c: Client, key: string): (r: string)
    ensures Field(c, key).Text? ==> |r| == |Field(c, key).s|
    ensures !Field(c, key).Text? ==> r == ""
    ensures Lower(r) == r
  {
    LowerIdempotent(if Field(c, key).Text? then Field(c, key).s else "");
    match Field(c, key)
    case Text(s) => Lower(s)
    case _ => ""
  }

  predicate FieldIncludes(c: Client, key: string, needle: string) {
    Includes(LoweredField(c, key), needle)
  }

  /** The predicate of `filteredClients`. */
  predicate MatchesSearch(c: Client, term: string)
    ensures term == "" ==> MatchesSearch(c, term)
    ensures MatchesSearch(c, term) && term != "" ==>
      exists i :: 0 <= i < |SearchFields| && Field(c, SearchFields[i]).Text? && |term| <= |Field(c, SearchFields[i]).s|
  {
    if term == "" then true
    else
      var needle := Lower(term);
      HitIsText(c, 0, needle); HitIsText(c, 1, needle); HitIsText(c, 2, needle);
      HitIsText(c, 3, needle); HitIsText(c, 4, needle); HitIsText(c, 5, needle);
      || FieldIncludes(c, "nome", needle)
      || FieldIncludes(c, "empresa", needle)
      || FieldIncludes(c, "email", needle)
      || FieldIncludes(c, "cargo", needle)
      || FieldIncludes(c, "cidade", needle)
      || FieldIncludes(c, "socio", needle)
  }

  /** Only a text column at least as long as the term can contain it. */
  lemma HitIsText(c: Client, i: nat, needle: string)
    ensures i < |SearchFields| && needle != "" && FieldIncludes(c, SearchFields[i], needle) ==>
      Field(c, SearchFields[i]).Text? && |needle| <= |Field(c, SearchFields[i]).s|
  {
  }

  /** `filteredClients`: the loaded clients that match, in their loaded order. */
  function FilteredClients(clients: seq<Client>, term: string): (r: seq<Client>)
    ensures IsSubsequence(r, clients)
    ensures forall c :: c in r <==> c in clients && MatchesSearch(c, term)
  {
    Filter((c: Client) => MatchesSearch(c, term), clients)
  }

  /** A client matches a non-empty term iff one of the six columns, lowered, contains the
      lowered term. */
  lemma MatchesSearchMeans(c: Client, term: string)
    ensures MatchesSearch(c, term) <==>
      term == "" || exists i :: 0 <= i < |SearchFields| && Includes(LoweredField(c, SearchFields[i]), Lower(term))
  {
    if term != "" && MatchesSearch(c, term) {
      var needle := Lower(term);
      if FieldIncludes(c, "nome", needle) { assert SearchFields[0] == "nome"; }
      else if FieldIncludes(c, "empresa", needle) { assert SearchFields[1] == "empresa"; }
      else if FieldIncludes(c, "email", needle) { assert SearchFields[2] == "email"; }
      else if FieldIncludes(c, "cargo", needle) { assert SearchFields[3] == "cargo"; }
      else if FieldIncludes(c, "cidade", needle) { assert SearchFields[4] == "cidade"; }
      else { assert SearchFields[5] == "socio"; }
    }
  }

  /** An empty term returns every loaded client. */
  lemma EmptyTermKeepsAll(clients: seq<Client>)
    ensures FilteredClients(clients, "") == clients
  {
    FilterKeepsAll((c: Client) => MatchesSearch(c, ""), clients);
  }

  /** A missing or null column contributes the empty string, which no non-empty term is
      contained in. */
  lemma NullFieldNeverMatches(c: Client, key: string, term: string)
    requires Field(c, key) == Null && term != ""
    ensures !Includes(LoweredField(c, key), Lower(term))
  {
  }

  /** Columns outside the six never affect the result. */
  lemma SearchSeesOnlySixFields(c: Client, d: Client, term: string)
    requires forall i :: 0 <= i < |SearchFields| ==> Field(c, SearchFields[i]) == Field(d, SearchFields[i])
    ensures MatchesSearch(c, term) == MatchesSearch(d, term)
  {
    assert Field(c, SearchFields[0]) == Field(d, SearchFields[0]);
    assert Field(c, SearchFields[1]) == Field(d, SearchFields[1]);
    assert Field(c, SearchFields[2]) == Field(d, SearchFields[2]);
    assert Field(c, SearchFields[3]) == Field(d, SearchFields[3]);
    assert Field(c, SearchFields[4]) == Field(d, SearchFields[4]);
    assert Field(c, SearchFields[5]) == Field(d, SearchFields[5]);
  }

  /** Terms that differ only in letter case select the same clients. */
  lemma SearchIgnoresCase(clients: seq<Client>, t1: string, t2: string)
    requires Lower(t1) == Lower(t2)
    ensures FilteredClients(clients, t1) == FilteredClients(clients, t2)
  {
    assert |t1| == |t2|;
    FilterAgree((c: Client) => MatchesSearch(c, t1), (c: Client) => MatchesSearch(c, t2), clients);
  }

  /** Matching a longer term implies matching any term it contains. */
  lemma MatchesSearchShorter(c: Client, short: string, long: string)
    requires Includes(long, short) && MatchesSearch(c, long)
    ensures MatchesSearch(c, short)
  {
    if short != "" {
      IncludesEmpty(long, short);
      MatchesSearchMeans(c, long);
      MatchesSearchMeans(c, short);
      var i :| 0 <= i < |SearchFields| && Includes(LoweredField(c, SearchFields[i]), Lower(long));
      IncludesLower(long, short);
      IncludesTransitive(Lower(short), Lower(long), LoweredField(c, SearchFields[i]));
    }
  }

  /** Typing more narrows the list: the result for a longer term is a subsequence of the
      result for any term it contains. */
  lemma SearchMonotone(clients: seq<Client>, short: string, long: string)
    requires Includes(long, short)
    ensures IsSubsequence(FilteredClients(clients, long), FilteredClients(clients, short))
  {
    forall c | c in clients && MatchesSearch(c, long)
      ensures MatchesSearch(c, short)
    {
      MatchesSearchShorter(c, short, long);
    }
    FilterMonotone((c: Client) => MatchesSearch(c, long), (c: Client) => MatchesSearch(c, short), clients);
  }

  // ---------------------------------------------------------------- search panel

  /** The search box: whether it is open, and the typed term. */
  datatype SearchPanel = SearchPanel(isOpen: bool, term: string)

  /** The search button: flips the panel, and clears the term when it was open. */
  function ToggleSearch(p: SearchPanel): (r: SearchPanel)
    ensures r.isOpen != p.isOpen
    ensures p.isOpen ==> r.term == ""
    ensures !p.isOpen ==> r.term == p.term
  {
    SearchPanel(!p.isOpen, if p.isOpen then "" else p.term)
  }

  /** Closing the search panel brings back every loaded client. */
  lemma ClosingSearchShowsAll(clients: seq<Client>, p: SearchPanel)
    requires p.isOpen
    ensures FilteredClients(clients, ToggleSearch(p).term) == clients
  {
    EmptyTermKeepsAll(clients);
  }

  /** What the list shows: the dashboard-filtered rows, then searched. */
  function VisibleClients(table: seq<Client>, filters: Option<DashboardFilters>, term: string): (r: seq<Client>)
    ensures IsSubsequence(r, table)
    ensures forall c :: c in r <==> c in table && MatchesDashboard(filters, c) && MatchesSearch(c, term)
  {
    var loaded := FetchClients(table, filters);
    SubsequenceTransitive(FilteredClients(loaded, term), loaded, table);
    FilteredClients(loaded, term)
  }
}

=== FILE: incomplete.dfy ===
/** The data-completeness queue of `IncompleteClients.tsx`: which client records are
    pending, which "Falta:" badges each shows, and the "Ignorar" action that waives the
    record's currently empty fields. */
module Incomplete {
  import opened Wrappers
  import opened Text
  import opened Seqs
  import opened Records

  /** One entry of the required-field schema: the column and the label shown and
      stored in `ignored_fields`. */
  datatype FieldSpec = FieldSpec(key: string, caption: string)

  /** `REQUIRED_FIELDS`, in declaration order. */
  const RequiredFields: seq<FieldSpec> := [
    FieldSpec("nome", "Nome"),
    FieldSpec("empresa", "Empresa"),
    FieldSpec("cargo", "Cargo"),
    FieldSpec("tipo_brinde", "Tipo Brinde"),
    FieldSpec("cep", "CEP"),
    FieldSpec("endereco", "Endereço"),
    FieldSpec("numero", "Número"),
    FieldSpec("bairro", "Bairro"),
    FieldSpec("cidade", "Cidade"),
    FieldSpec("estado", "UF"),
    FieldSpec("email", "Email"),
    FieldSpec("socio", "Sócio")
  ]

  function LabelOf(f: FieldSpec): string { f.caption }

  function Labels(fs: seq<FieldSpec>): (r: seq<string>)
    ensures |r| == |fs|
    ensures forall i :: 0 <= i < |fs| ==> r[i] == fs[i].caption
  {
    Map(LabelOf, fs)
  }

  /** A label is listed exactly when some entry carries it. */
  lemma LabelsMembership(fs: seq<FieldSpec>)
    ensures forall l :: l in Labels(fs) <==> exists f :: f in fs && f.caption == l
  {
    forall l | l in Labels(fs)
      ensures exists f :: f in fs && f.caption == l
    {
      var i :| 0 <= i < |fs| && Labels(fs)[i] == l;
      assert fs[i] in fs;
    }
  }

  /** The labels of the entries that pass a test are exactly the captions of passing entries. */
  lemma FilterLabels(p: FieldSpec -> bool, fs: seq<FieldSpec>)
    ensures forall l :: l in Labels(Filter(p, fs)) <==> exists f :: f in fs && f.caption == l && p(f)
  {
    LabelsMembership(Filter(p, fs));
  }

  /** The schema has twelve entries with pairwise distinct keys and labels. */
  lemma SchemaWellFormed()
    ensures |RequiredFields| == 12
    ensures NoDuplicates(Labels(RequiredFields))
    ensures forall i, j :: 0 <= i < j < |RequiredFields| ==> RequiredFields[i].key != RequiredFields[j].key
  {
  }

  /** No two schema entries share a caption. */
  lemma CaptionIdentifiesField(f: FieldSpec)
    requires f in RequiredFields
    ensures forall g :: g in RequiredFields && g.caption == f.caption ==> g == f
  {
    SchemaWellFormed();
    var i :| 0 <= i < |RequiredFields| && RequiredFields[i] == f;
    forall g | g in RequiredFields && g.caption == f.caption
      ensures g == f
    {
      var j :| 0 <= j < |RequiredFields| && RequiredFields[j] == g;
      assert Labels(RequiredFields)[i] == Labels(RequiredFields)[j];
    }
  }

  // ---------------------------------------------------------------- queue membership

  /** The per-field test of the queue filter: blank after trimming and not waived. */
  predicate IsPending(c: Client, f: FieldSpec) {
    IsBlank(Field(c, f.key)) && f.caption !in IgnoredOf(c)
  }

  /** `fs.some(field => isEmpty && !isIgnored)`, evaluated left to right. */
  function SomePending(c: Client, fs: seq<FieldSpec>): (r: bool)
    ensures r <==> exists i :: 0 <= i < |fs| && IsPending(c, fs[i])
  {
    if fs == [] then false
    else if IsPending(c, fs[0]) then true
    else
      var r := SomePending(c, fs[1..]);
      assert forall i :: 1 <= i < |fs| ==> fs[i] == fs[1..][i - 1];
      r
  }

  /** `hasMissing` for one fetched record. */
  predicate HasMissing(c: Client)
    ensures HasMissing(c) <==> exists f :: f in RequiredFields && IsPending(c, f)
  {
    SomePending(c, RequiredFields)
  }

  /** `data.filter(...)` in `fetchIncompleteClients`: the pending records, in fetch order,
      each exactly as fetched. */
  function Queue(data: seq<Client>): (r: seq<Client>)
    ensures IsSubsequence(r, data)
    ensures forall c :: c in r <==> c in data && HasMissing(c)
  {
    Filter(HasMissing, data)
  }

  /** Queue membership in the schema's own terms. */
  lemma QueueMembership(data: seq<Client>, c: Client)
    ensures c in Queue(data) <==>
      (c in data && exists f :: f in RequiredFields && FalsyOrWhitespace(Field(c, f.key)) && f.caption !in IgnoredOf(c))
  {
    if c in data && exists f :: f in RequiredFields && FalsyOrWhitespace(Field(c, f.key)) && f.caption !in IgnoredOf(c) {
      var f :| f in RequiredFields && FalsyOrWhitespace(Field(c, f.key)) && f.caption !in IgnoredOf(c);
      var i :| 0 <= i < |RequiredFields| && RequiredFields[i] == f;
      assert IsPending(c, RequiredFields[i]);
    }
  }

  // ---------------------------------------------------------------- badges

  /** The per-field test of the badge list: falsy (no trimming) and not waived. */
  predicate ShowsBadge(c: Client, f: FieldSpec) {
    Falsy(Field(c, f.key)) && f.caption !in IgnoredOf(c)
  }

  /** The "Falta:" badges rendered for a queued record. */
  function Badges(c: Client): (r: seq<string>)
    ensures forall l :: l in r <==> exists f :: f in RequiredFields && f.caption == l && ShowsBadge(c, f)
    ensures IsSubsequence(r, Labels(RequiredFields))
    ensures NoDuplicates(r)
  {
    var shown := Filter((f: FieldSpec) => ShowsBadge(c, f), RequiredFields);
    SubsequenceMap(LabelOf, shown, RequiredFields);
    SchemaWellFormed();
    SubsequenceNoDuplicates(Labels(shown), Labels(RequiredFields));
    LabelsMembership(shown);
    Labels(shown)
  }

  // ---------------------------------------------------------------- "Ignorar"

  /** The labels `handleIgnore` waives: every required field whose value is falsy. */
  function IgnoreTargets(c: Client): (r: seq<string>)
    ensures forall l :: l in r <==> exists f :: f in RequiredFields && f.caption == l && Falsy(Field(c, f.key))
  {
    var columns := c.columns;
    var missing := (f: FieldSpec) => Falsy(Lookup(columns, f.key));
    FilterLabels(missing, RequiredFields);
    Labels(Filter(missing, RequiredFields))
  }

  /** `newIgnored`: the old list followed by the newly waived labels, without repeats. */
  function NewIgnored(c: Client): (r: seq<string>)
    ensures forall l :: l in IgnoredOf(c) ==> l in r
    ensures forall f :: f in RequiredFields && Falsy(Field(c, f.key)) ==> f.caption in r
    ensures forall l :: l in r ==> l in IgnoredOf(c) || l in IgnoreTargets(c)
    ensures NoDuplicates(r)
    ensures Dedupe(IgnoredOf(c)) <= r
  {
    UnionList(IgnoredOf(c), IgnoreTargets(c))
  }

  /** The single write `handleIgnore` issues: `update({ ignored_fields }).eq('id', id)`. */
  datatype IgnoreWrite = IgnoreWrite(id: string, ignoredFields: seq<string>)

  /** `handleIgnore`: nothing when the confirmation is declined, otherwise the write. */
  function HandleIgnore(c: Client, confirmed: bool): (w: Option<IgnoreWrite>)
    ensures !confirmed <==> w == None
    ensures w.Some? ==> w.value.id == c.id && w.value.ignoredFields == NewIgnored(c)
  {
    if !confirmed then None else Some(IgnoreWrite(c.id, NewIgnored(c)))
  }

  /** The stored row after a write: only `ignored_fields` of rows with the key changes. */
  function ApplyWrite(table: seq<Client>, w: IgnoreWrite): (r: seq<Client>)
    ensures |r| == |table|
    ensures forall i :: 0 <= i < |table| ==> r[i].id == table[i].id && r[i].columns == table[i].columns
    ensures forall i :: 0 <= i < |table| && table[i].id != w.id ==> r[i] == table[i]
    ensures forall i :: 0 <= i < |table| && table[i].id == w.id ==> r[i].ignoredFields == Some(w.ignoredFields)
  {
    seq(|table|, i requires 0 <= i < |table| =>
      if table[i].id == w.id then table[i].(ignoredFields := Some(w.ignoredFields)) else table[i])
  }

  /** The record as stored after a confirmed "Ignorar". */
  function Ignored(c: Client): (r: Client)
    ensures r.id == c.id && r.columns == c.columns
  {
    c.(ignoredFields := Some(NewIgnored(c)))
  }

  /** A field that a confirmed "Ignorar" leaves pending: it holds truthy whitespace, so it
      is not waived, and it was not waived before. */
  predicate StaysPending(c: Client, f: FieldSpec) {
    WhitespaceOnly(Field(c, f.key)) && f.caption !in IgnoredOf(c)
  }

  /** After "Ignorar" the stored record is still queued exactly when one of its required
      fields holds whitespace only and was not waived before. */
  lemma QueuedAfterIgnoreIff(c: Client)
    ensures HasMissing(Ignored(c)) <==> exists f :: f in RequiredFields && StaysPending(c, f)
  {
    if HasMissing(Ignored(c)) {
      var i :| 0 <= i < |RequiredFields| && IsPending(Ignored(c), RequiredFields[i]);
      var f := RequiredFields[i];
      assert f.caption !in NewIgnored(c);
      assert StaysPending(c, f);
    }
    if exists f :: f in RequiredFields && StaysPending(c, f) {
      var f :| f in RequiredFields && StaysPending(c, f);
      WhitespaceFieldKeepsRecordQueued(c, f);
    }
  }

  /** The write stores the ignored record in place of the original and keeps every row
      with another id. */
  lemma WriteStoresIgnored(table: seq<Client>, c: Client)
    ensures c in table ==> Ignored(c) in ApplyWrite(table, IgnoreWrite(c.id, NewIgnored(c)))
    ensures forall d :: d in table && d.id != c.id ==> d in ApplyWrite(table, IgnoreWrite(c.id, NewIgnored(c)))
  {
    var t := ApplyWrite(table, IgnoreWrite(c.id, NewIgnored(c)));
    if c in table {
      var i :| 0 <= i < |table| && table[i] == c;
      assert t[i] == Ignored(c);
    }
    forall d | d in table && d.id != c.id
      ensures d in t
    {
      var i :| 0 <= i < |table| && table[i] == d;
      assert t[i] == d;
    }
  }

  /** The queue the component shows once `handleIgnore` has finished: unchanged when the
      user declines or the write fails, otherwise recomputed from the updated table. After
      a successful write the record is queued again only for a whitespace-only field, and
      every record with another id is queued as before. */
  function QueueAfterIgnore(table: seq<Client>, shown: seq<Client>, c: Client, confirmed: bool, writeOk: bool): (r: seq<Client>)
    ensures !confirmed ==> r == shown
    ensures confirmed && !writeOk ==> r == shown
    ensures confirmed && writeOk && c in table ==>
      (Ignored(c) in r <==> exists f :: f in RequiredFields && StaysPending(c, f))
    ensures confirmed && writeOk ==>
      forall d :: d in table && d.id != c.id ==> (d in r <==> HasMissing(d))
  {
    match HandleIgnore(c, confirmed)
    case None => shown
    case Some(w) =>
      if writeOk then
        WriteStoresIgnored(table, c);
        QueuedAfterIgnoreIff(c);
        Queue(ApplyWrite(table, w))
      else shown
  }

  /** Right after "Ignorar" the record shows no badge. */
  lemma IgnoreClearsBadges(c: Client)
    ensures Badges(Ignored(c)) == []
  {
    var r := Ignored(c);
    forall f | f in RequiredFields
      ensures !ShowsBadge(r, f)
    {
      if Falsy(Field(c, f.key)) {
        assert f.caption in NewIgnored(c);
      }
    }
    FilterKeepsNone((f: FieldSpec) => ShowsBadge(r, f), RequiredFields);
  }

  /** "Ignorar" is idempotent: repeating it on the stored record writes the same list. */
  lemma IgnoreIdempotent(c: Client)
    ensures NewIgnored(Ignored(c)) == NewIgnored(c)
  {
    UnionListIdempotent(IgnoredOf(c), IgnoreTargets(c));
  }

  /** A null `ignored_fields` behaves as an empty list for the queue, the badges and "Ignorar". */
  lemma AbsentIgnoredIsEmpty(c: Client)
    requires c.ignoredFields == None
    ensures HasMissing(c) == HasMissing(c.(ignoredFields := Some([])))
    ensures Badges(c) == Badges(c.(ignoredFields := Some([])))
    ensures NewIgnored(c) == NewIgnored(c.(ignoredFields := Some([])))
  {
    var e := c.(ignoredFields := Some([]));
    assert forall f :: ShowsBadge(c, f) == ShowsBadge(e, f);
    assert forall f :: IsPending(c, f) == IsPending(e, f);
    FilterAgree((f: FieldSpec) => ShowsBadge(c, f), (f: FieldSpec) => ShowsBadge(e, f), RequiredFields);
    FilterAgree((f: FieldSpec) => Falsy(Field(c, f.key)), (f: FieldSpec) => Falsy(Field(e, f.key)), RequiredFields);
  }

  /** The asymmetry between the queue test and "Ignorar": a required field holding only
      whitespace is truthy, so "Ignorar" does not waive it, yet the queue treats it as
      empty. The record stays queued with no badge to explain why. */
  lemma WhitespaceFieldKeepsRecordQueued(c: Client, f: FieldSpec)
    requires f in RequiredFields
    requires WhitespaceOnly(Field(c, f.key))
    requires f.caption !in IgnoredOf(c)
    ensures HasMissing(Ignored(c))
    ensures Badges(Ignored(c)) == []
  {
    IgnoreClearsBadges(c);
    CaptionIdentifiesField(f);
    assert f.caption !in IgnoreTargets(c);
    assert f.caption !in NewIgnored(c);
    var i :| 0 <= i < |RequiredFields| && RequiredFields[i] == f;
    assert IsPending(Ignored(c), RequiredFields[i]);
  }

  /** One pending field is enough to queue a record. */
  lemma PendingFieldQueues(c: Client, i: nat)
    requires i < |RequiredFields| && IsPending(c, RequiredFields[i])
    ensures HasMissing(c)
  {
  }

  /** A record without a name shows the "Nome" badge unless it was waived. */
  lemma BadgeOfEmptyName(c: Client)
    requires Falsy(Field(c, "nome")) && "Nome" !in IgnoredOf(c)
    ensures "Nome" in Badges(c)
  {
    assert RequiredFields[0] in RequiredFields && ShowsBadge(c, RequiredFields[0]);
  }

  /** A client with no columns but a city of three spaces. */
  function WhitespaceCityClient(): Client {
    Client("1", map["cidade" := Text("   ")], None)
  }

  /** Before "Ignorar" the sample is queued and shows the badges of its empty columns. */
  lemma WhitespaceCityBefore()
    ensures HasMissing(WhitespaceCityClient()) && Badges(WhitespaceCityClient()) != []
  {
    var c := WhitespaceCityClient();
    assert Field(c, "nome") == Null;
    BadgeOfEmptyName(c);
    PendingFieldQueues(c, 0);
  }

  /** After "Ignorar" the sample is still queued, because of its city, but shows no badge. */
  lemma WhitespaceCityAfter()
    ensures HasMissing(Ignored(WhitespaceCityClient())) && Badges(Ignored(WhitespaceCityClient())) == []
  {
    var c := WhitespaceCityClient();
    assert Field(c, "cidade") == Text("   ");
    assert AllWhitespace("   ");
    WhitespaceFieldKeepsRecordQueued(c, RequiredFields[8]);
  }

  // ---------------------------------------------------------------- corrected "Ignorar"

  /** The waiver "Ignorar" evidently intends: every required field the queue regards as
      empty, i.e. blank after trimming. */
  function BlankTargets(c: Client): (r: seq<string>)
    ensures forall l :: l in r <==> exists f :: f in RequiredFields && f.caption == l && IsBlank(Field(c, f.key))
  {
    var blank := Filter((f: FieldSpec) => IsBlank(Field(c, f.key)), RequiredFields);
    LabelsMembership(blank);
    Labels(blank)
  }

  /** The corrected stored record: the same union, but over the blank fields. */
  function IgnoredCorrected(c: Client): (r: Client)
    ensures r.id == c.id && r.columns == c.columns
    ensures forall l :: l in IgnoredOf(c) ==> l in IgnoredOf(r)
  {
    c.(ignoredFields := Some(UnionList(IgnoredOf(c), BlankTargets(c))))
  }

  /** With the corrected waiver the record leaves the queue and shows no badge. */
  lemma IgnoreCorrectedClearsQueue(c: Client)
    ensures !HasMissing(IgnoredCorrected(c))
    ensures Badges(IgnoredCorrected(c)) == []
  {
    var r := IgnoredCorrected(c);
    forall i | 0 <= i < |RequiredFields|
      ensures !IsPending(r, RequiredFields[i])
    {
      if IsBlank(Field(c, RequiredFields[i].key)) {
        assert RequiredFields[i].caption in BlankTargets(c);
      }
    }
    var b := Badges(r);
    if b != [] {
      assert b[0] in b;
    }
  }
}

=== FILE: magistrados.dfy ===
/** The PIN gate of `Magistrados.tsx`: an e-mail allow-list check, a four-slot PIN entry,
    verification against the stored PIN, locking, and the choice of screen. */
module Magistrados {
  import opened Wrappers
  import opened Text

  /** The component's state. */
  datatype Gate = Gate(
    hasAccess: bool,
    isPinCorrect: bool,
    loading: bool,
    pin: seq<string>,
    errorMsg: string,
    currentUserEmail: string)

  const EmptyPin: seq<string> := ["", "", "", ""]
  const WrongPinMessage: string := "PIN Incorreto."

  /** The state at mount. */
  const Initial: Gate := Gate(false, false, true, EmptyPin, "", "")

  /** The PIN is four slots of at most one UTF-16 code unit each. */
  predicate WellFormed(g: Gate) {
    |g.pin| == 4 && forall k :: 0 <= k < 4 ==> Utf16Length(g.pin[k]) <= 1
  }

  /** `checkPermission` once both lookups have answered. `email` is the signed-in user's
      address (`None` without a user); `allowed` is `emails_permitidos` (`None` when the
      configuration row or the column is missing). */
  function CheckPermission(g: Gate, email: Option<string>, allowed: Option<seq<string>>): (r: Gate)
    ensures !r.loading
    ensures email.Some? && email.value != "" ==>
      r.hasAccess == (email.value in allowed.GetOr([])) && r.currentUserEmail == email.value
    ensures email.None? || email.value == "" ==> r.hasAccess == g.hasAccess && r.currentUserEmail == g.currentUserEmail
    ensures r.isPinCorrect == g.isPinCorrect && r.pin == g.pin && r.errorMsg == g.errorMsg
  {
    if email.Some? && email.value != "" then
      g.(currentUserEmail := email.value, hasAccess := email.value in allowed.GetOr([]), loading := false)
    else
      g.(loading := false)
  }

  /** From the mount state, access is granted iff the user has an e-mail on the list. */
  lemma AccessOnlyForListedEmail(email: Option<string>, allowed: Option<seq<string>>)
    ensures CheckPermission(Initial, email, allowed).hasAccess <==>
      email.Some? && email.value != "" && allowed.Some? && email.value in allowed.value
  {
  }

  /** `handlePinChange(index, value)`: input longer than one UTF-16 code unit (JavaScript's
      `value.length`) is ignored; otherwise the slot takes the value. `index` is the slot's
      position, which the render supplies. */
  function HandlePinChange(g: Gate, index: nat, value: string): (r: Gate)
    requires index < |g.pin|
    ensures Utf16Length(value) > 1 ==> r == g
    ensures |r.pin| == |g.pin|
    ensures Utf16Length(value) <= 1 ==> r.pin[index] == value
    ensures forall k :: 0 <= k < |g.pin| && k != index ==> r.pin[k] == g.pin[k]
    ensures r.(pin := g.pin) == g
  {
    if Utf16Length(value) > 1 then g else g.(pin := g.pin[index := value])
  }

  /** A single character outside the Basic Multilingual Plane is two code units long, so
      it is rejected like two typed characters. */
  lemma AstralCharacterIsRejected(g: Gate, index: nat, c: char)
    requires index < |g.pin| && c > '\U{FFFF}'
    ensures HandlePinChange(g, index, [c]) == g
  {
    assert Utf16Length([c][1..]) == 0;
  }

  /** `pinInput.join('')`: empty exactly when every slot is, and led by the first slot. */
  function Join(slots: seq<string>): (r: string)
    ensures r == "" <==> forall k :: 0 <= k < |slots| ==> slots[k] == ""
    ensures slots != [] ==> slots[0] <= r
  {
    if slots == [] then ""
    else
      var rest := Join(slots[1..]);
      assert forall k :: 1 <= k < |slots| ==> slots[k] == slots[1..][k - 1];
      slots[0] + rest
  }

  /** `verifyPin` once the stored PIN has been read. `stored` is `pin_acesso`, `None` when
      the configuration row is missing. */
  function VerifyPin(g: Gate, stored: Option<string>): (r: Gate)
    ensures r.isPinCorrect == (g.isPinCorrect || (stored.Some? && stored.value == Join(g.pin)))
    ensures stored.Some? && stored.value == Join(g.pin) ==> r.errorMsg == "" && r.pin == g.pin
    ensures !(stored.Some? && stored.value == Join(g.pin)) ==>
      r.errorMsg == WrongPinMessage && r.pin == EmptyPin && r.isPinCorrect == g.isPinCorrect
    ensures r.hasAccess == g.hasAccess && r.loading == g.loading && r.currentUserEmail == g.currentUserEmail
  {
    var entered := Join(g.pin);
    if stored.Some? && stored.value == entered then
      g.(errorMsg := "", isPinCorrect := true)
    else
      g.(errorMsg := WrongPinMessage, pin := EmptyPin)
  }

  /** `handleLock`: clears the PIN and the message and locks; access is kept. */
  function HandleLock(g: Gate): (r: Gate)
    ensures !r.isPinCorrect && r.pin == EmptyPin && r.errorMsg == ""
    ensures r.hasAccess == g.hasAccess && r.loading == g.loading && r.currentUserEmail == g.currentUserEmail
  {
    g.(pin := EmptyPin, errorMsg := "", isPinCorrect := false)
  }

  /** Every transition keeps the PIN at four slots of at most one character. */
  lemma TransitionsKeepWellFormed(g: Gate, email: Option<string>, allowed: Option<seq<string>>,
                                  index: nat, value: string, stored: Option<string>)
    requires WellFormed(g) && index < 4
    ensures WellFormed(Initial)
    ensures WellFormed(CheckPermission(g, email, allowed))
    ensures WellFormed(HandlePinChange(g, index, value))
    ensures WellFormed(VerifyPin(g, stored))
    ensures WellFormed(HandleLock(g))
  {
  }

  /** A joined PIN has at most one character per slot. */
  lemma {:induction false} JoinLength(slots: seq<string>)
    requires forall k :: 0 <= k < |slots| ==> |slots[k]| <= 1
    ensures |Join(slots)| <= |slots|
    ensures |Join(slots)| == |slots| <==> forall k :: 0 <= k < |slots| ==> |slots[k]| == 1
  {
    if slots != [] {
      JoinLength(slots[1..]);
      assert forall k :: 1 <= k < |slots| ==> slots[k] == slots[1..][k - 1];
    }
  }

  /** A four-character stored PIN is only ever matched with all four slots filled. */
  lemma FourDigitPinNeedsFullEntry(g: Gate, stored: string)
    requires WellFormed(g) && |stored| == 4 && VerifyPin(g, Some(stored)).isPinCorrect && !g.isPinCorrect
    ensures forall k :: 0 <= k < 4 ==> |g.pin[k]| == 1
  {
    JoinLength(g.pin);
  }

  // ---------------------------------------------------------------- screen selection

  datatype Screen = AccessDenied | PinEntry | Protected

  /** The three-way choice of the render, as written: the two guards both require
      `!loading`, so while loading the protected content is returned. */
  function Render(g: Gate): (s: Screen)
    ensures s == Protected <==> g.loading || (g.hasAccess && g.isPinCorrect)
    ensures s == AccessDenied <==> !g.loading && !g.hasAccess
    ensures s == PinEntry <==> !g.loading && g.hasAccess && !g.isPinCorrect
  {
    if !g.loading && !g.hasAccess then AccessDenied
    else if !g.loading && g.hasAccess && !g.isPinCorrect then PinEntry
    else Protected
  }

  /** At mount, before the permission check answers, the protected list is rendered to a
      user who has neither access nor a PIN. */
  lemma ProtectedShownWhileLoading()
    ensures Render(Initial) == Protected
    ensures !Initial.hasAccess && !Initial.isPinCorrect
  {
  }

  /** The choice the guards evidently intend: a neutral waiting screen while loading. */
  datatype GuardedScreen = Waiting | Denied | AskPin | Content

  function RenderGuarded(g: Gate): (s: GuardedScreen)
    ensures s == Content <==> !g.loading && g.hasAccess && g.isPinCorrect
    ensures s == Waiting <==> g.loading
  {
    if g.loading then Waiting
    else if !g.hasAccess then Denied
    else if !g.isPinCorrect then AskPin
    else Content
  }

  /** With the guarded choice nothing is shown at mount, and the content appears only
      once loading is over, access was granted and the PIN was verified. */
  lemma GuardedContentNeedsAccessAndPin(g: Gate, stored: Option<string>)
    ensures RenderGuarded(Initial) == Waiting
    ensures RenderGuarded(VerifyPin(g, stored)) == Content <==>
      !g.loading && g.hasAccess && (g.isPinCorrect || (stored.Some? && stored.value == Join(g.pin)))
  {
  }
}

=== FILE: presencial.dfy ===
/** The attendance import of `collaborators/Presencial.tsx`: locating the name and time
    columns of each spreadsheet row, building the records to insert, and the rule that
    decides what is inserted and what count is reported. */
module Presencial {
  import opened Wrappers
  import opened Text
  import opened Seqs
  import opened Records

  /** A decoded spreadsheet row: its (header, cell) pairs in `Object.keys` order. */
  type Row = seq<(string, Value)>

  /** Header normalisation applied to the row's keys (`rowKeys`): trimmed, then lowered. */
  function NormalizeKey(k: string): (r: string)
    ensures |r| <= |k|
    ensures r == "" <==> AllWhitespace(k)
    ensures Lower(r) == r
  {
    LowerIdempotent(Trim(k));
    Lower(Trim(k))
  }

  /** Whether header `k` normalises to `target`. */
  predicate HeaderMatches(k: string, target: string) {
    NormalizeKey(k) == target
  }

  /** `rowKeys.includes(candidate.toLowerCase())`. */
  predicate HasColumn(row: Row, candidate: string)
    ensures HasColumn(row, candidate) <==> FirstColumnFrom(row, Lower(candidate), 0).Some?
  {
    exists j :: 0 <= j < |row| && HeaderMatches(row[j].0, Lower(candidate))
  }

  /** `keys.find(k => rowKeys.includes(k.toLowerCase()))`, scanning from position `from`;
      the result is the position of the candidate found. */
  function FirstCandidateFrom(row: Row, keys: seq<string>, from: nat): (r: Option<nat>)
    requires from <= |keys|
    ensures r == None <==> forall i :: from <= i < |keys| ==> !HasColumn(row, keys[i])
    ensures r.Some? ==> from <= r.value < |keys| && HasColumn(row, keys[r.value]) &&
                        forall i :: from <= i < r.value ==> !HasColumn(row, keys[i])
  {
    FirstFrom((k: string) => HasColumn(row, k), keys, from)
  }

  /** `Object.keys(row).find(k => k.trim().toLowerCase() === target)`, scanning from
      position `from`; the result is the position of the column found. */
  function FirstColumnFrom(row: Row, target: string, from: nat): (r: Option<nat>)
    requires from <= |row|
    ensures r == None <==> forall j :: from <= j < |row| ==> !HeaderMatches(row[j].0, target)
    ensures r.Some? ==> from <= r.value < |row| && HeaderMatches(row[r.value].0, target) &&
                        forall j :: from <= j < r.value ==> !HeaderMatches(row[j].0, target)
  {
    FirstFrom((cell: (string, Value)) => HeaderMatches(cell.0, target), row, from)
  }

  /** `findValue(row, keys)`: the cell of the highest-priority candidate the row has,
      or null. Both guards of the source are kept: an empty candidate and an empty
      header are falsy and yield null. */
  function FindValue(row: Row, keys: seq<string>): (r: Value)
    ensures (forall i :: 0 <= i < |keys| ==> !HasColumn(row, keys[i])) ==> r == Null
    ensures r != Null ==> exists j :: 0 <= j < |row| && row[j].1 == r
  {
    match FirstCandidateFrom(row, keys, 0)
    case None => Null
    case Some(i) =>
      var target := keys[i];
      if target == "" then Null
      else
        match FirstColumnFrom(row, Lower(target), 0)
        case None => Null
        case Some(j) => if row[j].0 == "" then Null else row[j].1
  }

  /** The cell of the first column whose header normalises to `target`. */
  predicate IsFirstCell(row: Row, target: string, v: Value) {
    exists j :: 0 <= j < |row| && HeaderMatches(row[j].0, target) && row[j].1 == v &&
                forall m :: 0 <= m < j ==> !HeaderMatches(row[m].0, target)
  }

  /** A header that normalises to a non-empty lowered candidate is itself non-empty. */
  lemma MatchedHeaderNonEmpty(k: string, candidate: string)
    requires candidate != "" && HeaderMatches(k, Lower(candidate))
    ensures k != ""
  {
    assert |Lower(candidate)| == |candidate| > 0;
    assert |Trim(k)| <= |k|;
  }

  /** Priority: the earliest candidate with a matching column decides, wherever that column
      sits; among several columns that normalise alike the leftmost one gives the value. */
  lemma FindValuePriority(row: Row, keys: seq<string>, i: nat)
    requires i < |keys| && keys[i] != "" && HasColumn(row, keys[i])
    requires forall j :: 0 <= j < i ==> !HasColumn(row, keys[j])
    ensures IsFirstCell(row, Lower(keys[i]), FindValue(row, keys))
  {
    CandidateFound(row, keys, i);
    var col := FirstColumnFrom(row, Lower(keys[i]), 0);
    var j := col.value;
    MatchedHeaderNonEmpty(row[j].0, keys[i]);
    FindValueAt(row, keys, i, j);
  }

  lemma CandidateFound(row: Row, keys: seq<string>, i: nat)
    requires i < |keys| && HasColumn(row, keys[i])
    requires forall j :: 0 <= j < i ==> !HasColumn(row, keys[j])
    ensures FirstCandidateFrom(row, keys, 0) == Some(i)
    ensures FirstColumnFrom(row, Lower(keys[i]), 0).Some?
  {
  }

  lemma FindValueAt(row: Row, keys: seq<string>, i: nat, j: nat)
    requires i < |keys| && j < |row| && keys[i] != "" && row[j].0 != ""
    requires FirstCandidateFrom(row, keys, 0) == Some(i)
    requires FirstColumnFrom(row, Lower(keys[i]), 0) == Some(j)
    ensures FindValue(row, keys) == row[j].1
  {
  }

  /** An empty candidate that wins yields null even when a later candidate has a column. */
  lemma EmptyCandidateYieldsNull(row: Row, keys: seq<string>, i: nat)
    requires i < |keys| && keys[i] == "" && HasColumn(row, keys[i])
    requires forall j :: 0 <= j < i ==> !HasColumn(row, keys[j])
    ensures FindValue(row, keys) == Null
  {
    CandidateFound(row, keys, i);
  }

  // ---------------------------------------------------------------- records to insert

  /** The name synonyms, in priority order. */
  const NameKeys: seq<string> := ["nome", "colaborador", "funcionario"]
  /** The time synonyms, in priority order. */
  const TimeKeys: seq<string> := ["tempo", "data", "horario"]
  /** The placeholder name of a row whose name could not be found. */
  const Unknown: Value := Text("Desconhecido")

  /** A record handed to storage. Times are milliseconds since the epoch. */
  datatype PresenceRecord = PresenceRecord(nomeColaborador: Value, dataHora: int, arquivoOrigem: string)

  /** The clock as one row's callback reads it: `new Date()` when the callback starts,
      and the second `new Date()` taken when the built date is invalid. */
  datatype Clock = Clock(atStart: int, onInvalid: int)

  /** A decoded row together with the clock readings of its own callback: every row
      reads the clock afresh. */
  datatype TimedRow = TimedRow(cells: Row, clock: Clock)

  /** The time of a row. `parse` stands for JavaScript's date construction from a string
      or an Excel serial number (`None` for an invalid date). Only a non-empty string or
      a number is parsed; anything else keeps the start reading. */
  function TimeOf(raw: Value, parse: Value -> Option<int>, clock: Clock): (r: int)
    ensures r == clock.atStart || r == clock.onInvalid || parse(raw) == Some(r)
    ensures raw == Null || raw == Text("") || raw.Bool? ==> r == clock.atStart
    ensures (raw.Number? || (raw.Text? && raw.s != "")) && parse(raw) == None ==> r == clock.onInvalid
    ensures (raw.Number? || (raw.Text? && raw.s != "")) && parse(raw).Some? ==> r == parse(raw).value
  {
    if (raw.Text? && raw.s != "") || raw.Number? then parse(raw).GetOr(clock.onInvalid) else clock.atStart
  }

  /** The name of a row: the looked-up cell, or the placeholder when that is falsy. */
  function NameOf(row: Row): (r: Value)
    ensures !Falsy(r)
    ensures r == Unknown <==> Falsy(FindValue(row, NameKeys)) || FindValue(row, NameKeys) == Unknown
    ensures r != Unknown ==> r == FindValue(row, NameKeys)
  {
    var v := FindValue(row, NameKeys);
    if Falsy(v) then Unknown else v
  }

  /** The record built from one row, with that row's clock readings. */
  function ToRecord(fileName: string, parse: Value -> Option<int>, t: TimedRow): (r: PresenceRecord)
    ensures r.arquivoOrigem == fileName
    ensures r.nomeColaborador == NameOf(t.cells)
    ensures r.dataHora == TimeOf(FindValue(t.cells, TimeKeys), parse, t.clock)
  {
    PresenceRecord(NameOf(t.cells), TimeOf(FindValue(t.cells, TimeKeys), parse, t.clock), fileName)
  }

  /** `recordsToInsert`: one record per row, in row order. */
  function ToRecords(fileName: string, parse: Value -> Option<int>, rows: seq<TimedRow>): (r: seq<PresenceRecord>)
    ensures |r| == |rows|
    ensures forall i :: 0 <= i < |rows| ==> r[i] == ToRecord(fileName, parse, rows[i])
  {
    Map((t: TimedRow) => ToRecord(fileName, parse, t), rows)
  }

  /** Two rows without a time cell are stamped with their own start readings, so their
      times differ whenever the clock moved between the two callbacks. */
  lemma RowsWithoutTimeReadTheirOwnClock(fileName: string, parse: Value -> Option<int>, rows: seq<TimedRow>, i: nat, j: nat)
    requires i < |rows| && j < |rows|
    requires FindValue(rows[i].cells, TimeKeys) == Null && FindValue(rows[j].cells, TimeKeys) == Null
    ensures ToRecords(fileName, parse, rows)[i].dataHora == rows[i].clock.atStart
    ensures ToRecords(fileName, parse, rows)[j].dataHora == rows[j].clock.atStart
    ensures rows[i].clock.atStart != rows[j].clock.atStart ==>
      ToRecords(fileName, parse, rows)[i] != ToRecords(fileName, parse, rows)[j]
  {
  }

  predicate IsNamed(r: PresenceRecord) {
    r.nomeColaborador != Unknown
  }

  /** `validRecords`: the records whose name is not the placeholder, in row order. */
  function ValidRecords(records: seq<PresenceRecord>): (r: seq<PresenceRecord>)
    ensures IsSubsequence(r, records)
    ensures forall x :: x in r <==> x in records && x.nomeColaborador != Unknown
    ensures forall x :: multiset(r)[x] == if x.nomeColaborador != Unknown then multiset(records)[x] else 0
  {
    FilterCounts(IsNamed, records);
    Filter(IsNamed, records)
  }

  /** Whether a row yields a record that is kept: its name lookup is truthy and is not
      literally the placeholder. */
  predicate RowKept(t: TimedRow) {
    NameOf(t.cells) != Unknown
  }

  /** What happened to an import. */
  datatype ImportOutcome =
    | NoValidRows                                              // alert, nothing inserted
    | InsertFailed(attempted: seq<PresenceRecord>)              // the insert was rejected
    | Imported(inserted: seq<PresenceRecord>, count: nat)       // success alert with the count

  /** The body of the reader's `onload`, after decoding: build, filter, then abort or
      insert. `insertOk` is the storage's answer to the insert. */
  function ImportRows(fileName: string, rows: seq<TimedRow>, parse: Value -> Option<int>, insertOk: bool): (o: ImportOutcome)
    ensures o.NoValidRows? <==> forall i :: 0 <= i < |rows| ==> !RowKept(rows[i])
    ensures o.InsertFailed? ==> !insertOk
    ensures o.Imported? ==> insertOk && o.count == |o.inserted| > 0
    ensures o.Imported? ==> IsSubsequence(o.inserted, ToRecords(fileName, parse, rows))
  {
    var records := ToRecords(fileName, parse, rows);
    var valid := ValidRecords(records);
    NoValidRecordIffNoKeptRow(fileName, parse, rows);
    if valid == [] then NoValidRows
    else if !insertOk then InsertFailed(valid)
    else
      assert valid[0] in valid;
      Imported(valid, |valid|)
  }

  /** No record survives the filter exactly when no row is kept. */
  lemma NoValidRecordIffNoKeptRow(fileName: string, parse: Value -> Option<int>, rows: seq<TimedRow>)
    ensures ValidRecords(ToRecords(fileName, parse, rows)) == [] <==> forall i :: 0 <= i < |rows| ==> !RowKept(rows[i])
  {
    var records := ToRecords(fileName, parse, rows);
    var valid := ValidRecords(records);
    if valid != [] {
      assert valid[0] in records;
    }
    if exists i :: 0 <= i < |rows| && RowKept(rows[i]) {
      var i :| 0 <= i < |rows| && RowKept(rows[i]);
      assert records[i] in valid;
    }
  }

  /** The reported count is the number of rows whose name was found and is not the
      placeholder, and the inserted records are exactly those rows' records, in order. */
  lemma ImportedCountIsKeptRows(fileName: string, rows: seq<TimedRow>, parse: Value -> Option<int>)
    requires exists i :: 0 <= i < |rows| && RowKept(rows[i])
    ensures ImportRows(fileName, rows, parse, true) ==
      Imported(ToRecords(fileName, parse, Filter(RowKept, rows)), |Filter(RowKept, rows)|)
  {
    var f := (t: TimedRow) => ToRecord(fileName, parse, t);
    var kept := Filter(RowKept, rows);
    FilterMap(IsNamed, f, RowKept, rows);
    assert ToRecords(fileName, parse, rows) == Map(f, rows);
    assert ToRecords(fileName, parse, kept) == Map(f, kept);
    assert ValidRecords(ToRecords(fileName, parse, rows)) == ToRecords(fileName, parse, kept);
    NoValidRecordIffNoKeptRow(fileName, parse, rows);
  }

  /** Every record offered for insertion names a collaborator and carries the file name. */
  lemma ValidRecordsAreNamedAndTagged(fileName: string, parse: Value -> Option<int>, rows: seq<TimedRow>)
    ensures forall x :: x in ValidRecords(ToRecords(fileName, parse, rows)) ==>
      x.arquivoOrigem == fileName && x.nomeColaborador != Unknown && !Falsy(x.nomeColaborador)
  {
    var records := ToRecords(fileName, parse, rows);
    forall x | x in ValidRecords(records)
      ensures x.arquivoOrigem == fileName && x.nomeColaborador != Unknown && !Falsy(x.nomeColaborador)
    {
      var i :| 0 <= i < |records| && records[i] == x;
      assert x == ToRecord(fileName, parse, rows[i]);
    }
  }

  /** A row whose name cell literally reads "Desconhecido" is dropped like a nameless one. */
  lemma PlaceholderNameIsDropped(fileName: string, parse: Value -> Option<int>, t: TimedRow)
    requires FindValue(t.cells, NameKeys) == Unknown
    ensures ValidRecords([ToRecord(fileName, parse, t)]) == []
  {
  }
}

=== FILE: records.dfy ===
/** The flat client row as the components see it: a JavaScript object whose columns
    hold strings, numbers, booleans or null, plus the `ignored_fields` list of waived labels. */
module Records {
  import opened Wrappers
  import opened Text

  /** A column value. `Null` stands for both `null` and `undefined`; numbers are integral;
      `Bool` is a boolean spreadsheet cell. */
  datatype Value = Null | Text(s: string) | Number(n: int) | Bool(b: bool)

  /** JavaScript falsiness (`!value`): null, the empty string, zero and `false`. */
  predicate Falsy(v: Value)
    ensures Falsy(v) <==> v == Null || v == Text("") || v == Number(0) || v == Bool(false)
  {
    match v
    case Null => true
    case Text(s) => s == ""
    case Number(n) => n == 0
    case Bool(b) => !b
  }

  /** `!value || value.toString().trim() === ''`. A truthy number prints as a non-empty
      run of digits and `true` as `"true"`, so only text can be blank beyond falsiness. */
  predicate IsBlank(v: Value)
    ensures IsBlank(v) <==> FalsyOrWhitespace(v)
    ensures Falsy(v) ==> IsBlank(v)
    ensures IsBlank(v) && !Falsy(v) <==> WhitespaceOnly(v)
  {
    Falsy(v) || (v.Text? && Trim(v.s) == "")
  }

  /** A client record: its primary key, its columns other than `ignored_fields`, and
      `ignored_fields`, which is `None` when the column is null. */
  datatype Client = Client(id: string, columns: map<string, Value>, ignoredFields: Option<seq<string>>)

  /** `row[key]`: a missing column reads as undefined. */
  function Lookup(columns: map<string, Value>, key: string): (r: Value)
    ensures key !in columns ==> r == Null
    ensures key in columns ==> r == columns[key]
  {
    if key in columns then columns[key] else Null
  }

  function Field(c: Client, key: string): Value {
    Lookup(c.columns, key)
  }

  /** `client.ignored_fields || []`. */
  function IgnoredOf(c: Client): (r: seq<string>)
    ensures c.ignoredFields == None ==> r == []
    ensures c.ignoredFields.Some? ==> r == c.ignoredFields.value
  {
    c.ignoredFields.GetOr([])
  }

  /** Falsy, or text made of whitespace only. */
  predicate FalsyOrWhitespace(v: Value) {
    Falsy(v) || (v.Text? && AllWhitespace(v.s))
  }

  /** Truthy text made of whitespace only: blank for `trim`, yet not falsy. */
  predicate WhitespaceOnly(v: Value) {
    v.Text? && v.s != "" && AllWhitespace(v.s)
  }
}

=== FILE: seqs.dfy ===
/** The list operations the components use (`Array.prototype.filter`, `map`, and
    `[...new Set(xs)]`), with the order facts that hold of them. */
module Seqs {
  import opened Wrappers

  /** `a` is obtained from `b` by deleting elements: order is kept and nothing is altered. */
  predicate IsSubsequence<T(==)>(a: seq<T>, b: seq<T>)
    decreases |b|
  {
    a == [] || (b != [] && ((a[0] == b[0] && IsSubsequence(a[1..], b[1..])) || IsSubsequence(a, b[1..])))
  }

  predicate NoDuplicates<T(==)>(s: seq<T>) {
    forall i, j :: 0 <= i < j < |s| ==> s[i] != s[j]
  }

  /** `s.filter(p)`: the elements that pass, in order; `FilterCounts` adds that every copy is kept. */
  function Filter<T(==,!new)>(p: T -> bool, s: seq<T>): (r: seq<T>)
    ensures |r| <= |s|
    ensures forall x :: x in r <==> x in s && p(x)
    ensures IsSubsequence(r, s)
  {
    if s == [] then []
    else if p(s[0]) then
      var rest := Filter(p, s[1..]);
      assert ([s[0]] + rest)[1..] == rest;
      [s[0]] + rest
    else Filter(p, s[1..])
  }

  /** The filter keeps every copy of an element that passes and none of one that fails. */
  lemma {:induction false} FilterCounts<T(!new)>(p: T -> bool, s: seq<T>)
    ensures forall x :: multiset(Filter(p, s))[x] == if p(x) then multiset(s)[x] else 0
    decreases |s|
  {
    if s != [] {
      FilterCounts(p, s[1..]);
      assert s == [s[0]] + s[1..];
    }
  }

  /** `s.findIndex(p)` started at position `from`: the first position at or after `from`
      whose element passes, or `None` when none does. */
  function FirstFrom<T>(p: T -> bool, s: seq<T>, from: nat): (r: Option<nat>)
    requires from <= |s|
    ensures r == None <==> forall i :: from <= i < |s| ==> !p(s[i])
    ensures r.Some? ==> from <= r.value < |s| && p(s[r.value]) &&
                        forall i :: from <= i < r.value ==> !p(s[i])
    decreases |s| - from
  {
    if from == |s| then None
    else if p(s[from]) then Some(from)
    else FirstFrom(p, s, from + 1)
  }

  /** `s.map(f)`. */
  function Map<A, B>(f: A -> B, s: seq<A>): (r: seq<B>)
    ensures |r| == |s|
    ensures forall i :: 0 <= i < |s| ==> r[i] == f(s[i])
  {
    seq(|s|, i requires 0 <= i < |s| => f(s[i]))
  }

  /** Every element of a subsequence is an element of the whole. */
  lemma {:induction false} SubsequenceElements<T>(a: seq<T>, b: seq<T>)
    requires IsSubsequence(a, b)
    ensures forall x :: x in a ==> x in b
    decreases |b|
  {
    if a != [] {
      if a[0] == b[0] && IsSubsequence(a[1..], b[1..]) {
        SubsequenceElements(a[1..], b[1..]);
        assert forall x :: x in a ==> x == a[0] || x in a[1..];
      } else {
        SubsequenceElements(a, b[1..]);
      }
    }
  }

  lemma {:induction false} SubsequenceTransitive<T>(a: seq<T>, b: seq<T>, c: seq<T>)
    requires IsSubsequence(a, b) && IsSubsequence(b, c)
    ensures IsSubsequence(a, c)
    decreases |c|
  {
    if a == [] {
    } else if b[0] == c[0] && IsSubsequence(b[1..], c[1..]) {
      if a[0] == b[0] && IsSubsequence(a[1..], b[1..]) {
        SubsequenceTransitive(a[1..], b[1..], c[1..]);
      } else {
        SubsequenceTransitive(a, b[1..], c[1..]);
      }
    } else {
      SubsequenceTransitive(a, b, c[1..]);
    }
  }

  /** A subsequence of a list without duplicates has none either. */
  lemma {:induction false} SubsequenceNoDuplicates<T>(a: seq<T>, b: seq<T>)
    requires IsSubsequence(a, b) && NoDuplicates(b)
    ensures NoDuplicates(a)
    decreases |b|
  {
    if a == [] {
    } else if a[0] == b[0] && IsSubsequence(a[1..], b[1..]) {
      SubsequenceNoDuplicates(a[1..], b[1..]);
      SubsequenceElements(a[1..], b[1..]);
      forall j | 0 < j < |a|
        ensures a[0] != a[j]
      {
        assert a[j] == a[1..][j - 1];
        assert a[j] in b[1..];
        var k :| 0 <= k < |b[1..]| && b[1..][k] == a[j];
        assert b[k + 1] == a[j];
      }
      forall i, j | 0 <= i < j < |a|
        ensures a[i] != a[j]
      {
        if i > 0 {
          assert a[i] == a[1..][i - 1] && a[j] == a[1..][j - 1];
        }
      }
    } else {
      SubsequenceNoDuplicates(a, b[1..]);
    }
  }

  /** Mapping keeps the subsequence relation. */
  lemma {:induction false} SubsequenceMap<A, B>(f: A -> B, a: seq<A>, b: seq<A>)
    requires IsSubsequence(a, b)
    ensures IsSubsequence(Map(f, a), Map(f, b))
    decreases |b|
  {
    if a == [] {
      assert Map(f, a) == [];
    } else {
      assert Map(f, b)[1..] == Map(f, b[1..]);
      if a[0] == b[0] && IsSubsequence(a[1..], b[1..]) {
        SubsequenceMap(f, a[1..], b[1..]);
        assert Map(f, a)[1..] == Map(f, a[1..]);
      } else {
        SubsequenceMap(f, a, b[1..]);
      }
    }
  }

  /** A filter whose test holds of every element returns the list unchanged. */
  lemma {:induction false} FilterKeepsAll<T(!new)>(p: T -> bool, s: seq<T>)
    requires forall x :: x in s ==> p(x)
    ensures Filter(p, s) == s
    decreases |s|
  {
    if s != [] {
      FilterKeepsAll(p, s[1..]);
    }
  }

  /** A filter whose test holds of no element returns the empty list. */
  lemma {:induction false} FilterKeepsNone<T(!new)>(p: T -> bool, s: seq<T>)
    requires forall x :: x in s ==> !p(x)
    ensures Filter(p, s) == []
    decreases |s|
  {
    if s != [] {
      FilterKeepsNone(p, s[1..]);
    }
  }

  /** Filters whose tests agree on the list give the same result. */
  lemma {:induction false} FilterAgree<T(!new)>(p: T -> bool, q: T -> bool, s: seq<T>)
    requires forall x :: x in s ==> p(x) == q(x)
    ensures Filter(p, s) == Filter(q, s)
    decreases |s|
  {
    if s != [] {
      FilterAgree(p, q, s[1..]);
    }
  }

  /** Weakening the test can only keep more: the stricter result is a subsequence of the laxer one. */
  lemma {:induction false} FilterMonotone<T(!new)>(strict: T -> bool, lax: T -> bool, s: seq<T>)
    requires forall x :: x in s && strict(x) ==> lax(x)
    ensures IsSubsequence(Filter(strict, s), Filter(lax, s))
    decreases |s|
  {
    if s != [] {
      FilterMonotone(strict, lax, s[1..]);
      var a, b := Filter(strict, s[1..]), Filter(lax, s[1..]);
      if strict(s[0]) {
        assert ([s[0]] + a)[1..] == a && ([s[0]] + b)[1..] == b;
      } else if lax(s[0]) {
        assert ([s[0]] + b)[1..] == b;
      }
    }
  }

  /** Filtering twice is filtering once by the conjunction of the tests. */
  lemma {:induction false} FilterFilter<T(!new)>(p: T -> bool, q: T -> bool, both: T -> bool, s: seq<T>)
    requires forall x :: x in s ==> both(x) == (p(x) && q(x))
    ensures Filter(q, Filter(p, s)) == Filter(both, s)
    decreases |s|
  {
    if s != [] {
      FilterFilter(p, q, both, s[1..]);
      if p(s[0]) {
        assert Filter(p, s)[1..] == Filter(p, s[1..]);
      }
    }
  }

  /** Filtering mapped elements is mapping the elements whose image passes. */
  lemma {:induction false} FilterMap<A(!new), B(!new)>(p: B -> bool, f: A -> B, pf: A -> bool, s: seq<A>)
    requires forall x :: x in s ==> pf(x) == p(f(x))
    ensures Filter(p, Map(f, s)) == Map(f, Filter(pf, s))
    decreases |s|
  {
    if s != [] {
      FilterMap(p, f, pf, s[1..]);
      assert Map(f, s)[1..] == Map(f, s[1..]);
      assert Map(f, s)[0] == f(s[0]);
      if pf(s[0]) {
        assert Map(f, [s[0]] + Filter(pf, s[1..])) == [f(s[0])] + Map(f, Filter(pf, s[1..]));
      }
    }
  }

  /** The left-to-right scan behind `[...new Set(s)]`: each element of `s` is appended to
      `acc` unless it is already there. */
  function DedupeInto<T(==,!new)>(acc: seq<T>, s: seq<T>): (r: seq<T>)
    ensures acc <= r
    ensures IsSubsequence(r[|acc|..], s)
    ensures forall x :: x in r <==> x in acc || x in s
    ensures NoDuplicates(acc) ==> NoDuplicates(r)
    ensures forall j :: |acc| <= j < |r| ==> r[j] !in acc
    decreases |s|
  {
    if s == [] then
      assert acc[|acc|..] == [];
      acc
    else if s[0] in acc then DedupeInto(acc, s[1..])
    else
      var r := DedupeInto(acc + [s[0]], s[1..]);
      assert acc <= acc + [s[0]];
      assert r[|acc|..][0] == s[0] && r[|acc|..][1..] == r[|acc| + 1..];
      r
  }

  /** The elements the scan appends come in order of first occurrence: an element
      collected earlier is in `acc` or occurs in `s` before any occurrence of a later one. */
  lemma {:induction false} DedupeIntoOrder<T(!new)>(acc: seq<T>, s: seq<T>, r: seq<T>)
    requires r == DedupeInto(acc, s)
    ensures forall i, j, k :: 0 <= i < j < |r| && |acc| <= j && 0 <= k < |s| && s[k] == r[j] ==>
      r[i] in acc || r[i] in s[..k]
    decreases |s|
  {
    if s != [] {
      if s[0] in acc {
        DedupeIntoOrder(acc, s[1..], r);
        forall i, j, k | 0 <= i < j < |r| && |acc| <= j && 0 <= k < |s| && s[k] == r[j]
          ensures r[i] in acc || r[i] in s[..k]
        {
          if k > 0 {
            assert s[1..][k - 1] == r[j];
            assert s[1..][..k - 1] == s[1..k];
          }
        }
      } else {
        var acc' := acc + [s[0]];
        assert r == DedupeInto(acc', s[1..]);
        DedupeIntoOrder(acc', s[1..], r);
        assert acc' <= r;
        assert r[|acc|] == s[0];
        forall i, j, k | 0 <= i < j < |r| && |acc| <= j && 0 <= k < |s| && s[k] == r[j]
          ensures r[i] in acc || r[i] in s[..k]
        {
          if i < |acc| {
            assert r[i] == acc[i];
          } else if j > |acc| && k > 0 {
            assert s[1..][k - 1] == r[j];
            assert s[1..][..k - 1] == s[1..k];
            assert r[i] in acc' || r[i] in s[1..k];
            if r[i] == s[0] {
              assert s[..k][0] == s[0];
            } else if r[i] !in acc {
              assert forall x :: x in s[1..k] ==> x in s[..k];
            }
          }
        }
      }
    }
  }

  /** `[...new Set(s)]`: the elements of `s`, each once, in order of first occurrence. */
  function Dedupe<T(==,!new)>(s: seq<T>): (r: seq<T>)
    ensures IsSubsequence(r, s)
    ensures forall x :: x in r <==> x in s
    ensures NoDuplicates(r)
    ensures forall i, j, k :: 0 <= i < j < |r| && 0 <= k < |s| && s[k] == r[j] ==> r[i] in s[..k]
  {
    var r := DedupeInto([], s);
    assert r[0..] == r;
    DedupeIntoOrder([], s, r);
    r
  }

  /** Scanning `s1 + s2` is scanning `s1`, then `s2`. */
  lemma {:induction false} DedupeIntoAppend<T(!new)>(acc: seq<T>, s1: seq<T>, s2: seq<T>)
    ensures DedupeInto(acc, s1 + s2) == DedupeInto(DedupeInto(acc, s1), s2)
    decreases |s1|
  {
    if s1 == [] {
      assert s1 + s2 == s2;
    } else {
      assert (s1 + s2)[0] == s1[0] && (s1 + s2)[1..] == s1[1..] + s2;
      if s1[0] in acc {
        DedupeIntoAppend(acc, s1[1..], s2);
      } else {
        DedupeIntoAppend(acc + [s1[0]], s1[1..], s2);
      }
    }
  }

  /** Elements that are all already collected add nothing. */
  lemma {:induction false} DedupeIntoCovered<T(!new)>(acc: seq<T>, s: seq<T>)
    requires forall x :: x in s ==> x in acc
    ensures DedupeInto(acc, s) == acc
    decreases |s|
  {
    if s != [] {
      DedupeIntoCovered(acc, s[1..]);
    }
  }

  /** A list with no duplicates is its own deduplication. */
  lemma {:induction false} DedupeIntoDistinct<T(!new)>(acc: seq<T>, s: seq<T>)
    requires NoDuplicates(acc + s)
    ensures DedupeInto(acc, s) == acc + s
    decreases |s|
  {
    if s == [] {
      assert acc + s == acc;
    } else {
      assert (acc + s)[|acc|] == s[0];
      assert s[0] !in acc by {
        forall i | 0 <= i < |acc|
          ensures acc[i] != s[0]
        {
          assert (acc + s)[i] == acc[i];
        }
      }
      assert acc + [s[0]] + s[1..] == acc + s;
      DedupeIntoDistinct(acc + [s[0]], s[1..]);
    }
  }

  /** `[...new Set([...prior, ...extra])]` as the union of two lists. */
  function UnionList<T(==,!new)>(prior: seq<T>, extra: seq<T>): (r: seq<T>)
    ensures forall x :: x in r <==> x in prior || x in extra
    ensures NoDuplicates(r)
    ensures Dedupe(prior) <= r
  {
    DedupeIntoAppend([], prior, extra);
    Dedupe(prior + extra)
  }

  /** Taking the union with the same extra elements a second time changes nothing. */
  lemma UnionListIdempotent<T(!new)>(prior: seq<T>, extra: seq<T>)
    ensures UnionList(UnionList(prior, extra), extra) == UnionList(prior, extra)
  {
    var u := UnionList(prior, extra);
    DedupeIntoAppend([], u, extra);
    assert [] + u == u;
    DedupeIntoDistinct([], u);
    DedupeIntoCovered(u, extra);
  }
}

=== FILE: text.dfy ===
/** String primitives of the JavaScript runtime that the components rely on:
    `String.prototype.trim`, `toLowerCase` and `includes`. */
module Text {

  /** The characters `trim` removes: ECMAScript's WhiteSpace (TAB, VT, FF, ZWNBSP and
      the Unicode space separators) and LineTerminator (LF, CR, LS, PS) productions. */
  predicate IsWhitespace(c: char) {
    || c == '\t' || c == '\n' || c == '\U{000B}' || c == '\U{000C}' || c == '\r'
    || c == ' ' || c == '\U{00A0}' || c == '\U{1680}'
    || ('\U{2000}' <= c <= '\U{200A}')
    || c == '\U{2028}' || c == '\U{2029}' || c == '\U{202F}' || c == '\U{205F}'
    || c == '\U{3000}' || c == '\U{FEFF}'
  }

  predicate AllWhitespace(s: string) {
    forall i :: 0 <= i < |s| ==> IsWhitespace(s[i])
  }

  /** Every character of `s` in positions `lo` to `hi` (exclusive) is whitespace. */
  predicate WhitespaceBetween(s: string, lo: int, hi: int) {
    forall i :: lo <= i < hi && 0 <= i < |s| ==> IsWhitespace(s[i])
  }

  /** The position of the first character at or after `from` that is not whitespace,
      or `|s|` when there is none. */
  function SkipForward(s: string, from: nat): (n: nat)
    requires from <= |s|
    ensures from <= n <= |s|
    ensures WhitespaceBetween(s, from, n)
    ensures n < |s| ==> !IsWhitespace(s[n])
    decreases |s| - from
  {
    if from < |s| && IsWhitespace(s[from]) then SkipForward(s, from + 1) else from
  }

  /** The end of `s[lo..hi]` once its trailing whitespace is dropped. */
  function SkipBackward(s: string, lo: nat, hi: nat): (m: nat)
    requires lo <= hi <= |s|
    ensures lo <= m <= hi
    ensures WhitespaceBetween(s, m, hi)
    ensures m > lo ==> !IsWhitespace(s[m - 1])
    decreases hi - lo
  {
    if lo < hi && IsWhitespace(s[hi - 1]) then SkipBackward(s, lo, hi - 1) else hi
  }

  /** `s.trim()`: a contiguous piece of `s`, preceded and followed only by whitespace,
      that neither starts nor ends with whitespace; empty exactly when `s` is whitespace
      only. */
  function Trim(s: string): (r: string)
    ensures |r| <= |s|
    ensures exists a, b :: 0 <= a <= b <= |s| && r == s[a..b] && AllWhitespace(s[..a]) && AllWhitespace(s[b..])
    ensures r != [] ==> !IsWhitespace(r[0]) && !IsWhitespace(r[|r| - 1])
    ensures r == [] <==> AllWhitespace(s)
  {
    var a := SkipForward(s, 0);
    var b := SkipBackward(s, a, |s|);
    assert AllWhitespace(s[..a]) by {
      forall i | 0 <= i < a ensures IsWhitespace(s[..a][i]) { assert s[..a][i] == s[i]; }
    }
    assert AllWhitespace(s[b..]) by {
      forall i | 0 <= i < |s| - b ensures IsWhitespace(s[b..][i]) { assert s[b..][i] == s[b + i]; }
    }
    s[a..b]
  }

  /** Case mapping of one character: ASCII `A`-`Z` and the Latin-1 capitals
      (U+00C0..U+00DE except the multiplication sign) map to their small letters;
      every other character is left as it is. */
  function LowerChar(c: char): (r: char)
  {
    if 'A' <= c <= 'Z' then (c as int + 32) as char
    else if '\U{00C0}' <= c <= '\U{00DE}' && c != '\U{00D7}' then (c as int + 32) as char
    else c
  }

  /** `s.toLowerCase()` character by character. */
  function Lower(s: string): (r: string)
    ensures |r| == |s|
    ensures forall i :: 0 <= i < |s| ==> r[i] == LowerChar(s[i])
  {
    seq(|s|, i requires 0 <= i < |s| => LowerChar(s[i]))
  }

  lemma LowerCharIdempotent(c: char)
    ensures LowerChar(LowerChar(c)) == LowerChar(c)
  {
  }

  /** Lowering twice is lowering once. */
  lemma LowerIdempotent(s: string)
    ensures Lower(Lower(s)) == Lower(s)
  {
    forall i | 0 <= i < |s|
      ensures Lower(Lower(s))[i] == Lower(s)[i]
    {
      LowerCharIdempotent(s[i]);
    }
  }

  /** `hay.includes(needle)`: `needle` starts at some position of `hay`. */
  predicate Includes(hay: string, needle: string)
    ensures needle <= hay ==> Includes(hay, needle)
    ensures Includes(hay, needle) ==> |needle| <= |hay|
    decreases |hay|
  {
    needle <= hay || (hay != [] && Includes(hay[1..], needle))
  }

  /** The positional reading of `Includes`. */
  lemma {:induction false} IncludesAt(hay: string, needle: string)
    ensures Includes(hay, needle) <==> exists k :: 0 <= k <= |hay| && needle <= hay[k..]
    decreases |hay|
  {
    if needle <= hay {
      assert hay[0..] == hay;
    } else if hay == [] {
    } else {
      IncludesAt(hay[1..], needle);
      if exists k :: 0 <= k <= |hay| && needle <= hay[k..] {
        var k :| 0 <= k <= |hay| && needle <= hay[k..];
        assert k != 0 by { assert hay[0..] == hay; }
        assert hay[1..][k - 1..] == hay[k..];
      }
      if Includes(hay[1..], needle) {
        var k :| 0 <= k <= |hay| - 1 && needle <= hay[1..][k..];
        assert hay[1..][k..] == hay[k + 1..];
      }
    }
  }

  /** Every string includes the empty string; only the empty string includes nothing else. */
  lemma IncludesEmpty(hay: string, needle: string)
    ensures Includes(hay, [])
    ensures Includes([], needle) <==> needle == []
  {
  }

  /** A substring of a substring is a substring. */
  lemma IncludesTransitive(a: string, b: string, c: string)
    requires Includes(c, b) && Includes(b, a)
    ensures Includes(c, a)
  {
    IncludesAt(c, b);
    IncludesAt(b, a);
    var k :| 0 <= k <= |c| && b <= c[k..];
    var m :| 0 <= m <= |b| && a <= b[m..];
    assert a <= c[k + m..] by {
      forall i | 0 <= i < |a|
        ensures a[i] == c[k + m..][i]
      {
        assert a[i] == b[m + i] == c[k..][m + i];
      }
    }
    IncludesAt(c, a);
  }

  /** Lowering both sides keeps a substring a substring. */
  lemma {:induction false} IncludesLower(hay: string, needle: string)
    requires Includes(hay, needle)
    ensures Includes(Lower(hay), Lower(needle))
    decreases |hay|
  {
    if needle <= hay {
      assert Lower(needle) <= Lower(hay);
    } else {
      assert Lower(hay[1..]) == Lower(hay)[1..];
      IncludesLower(hay[1..], needle);
    }
  }

  /** `s.length` in JavaScript: UTF-16 code units, so a character outside the Basic
      Multilingual Plane counts twice. */
  function Utf16Length(s: string): (r: nat)
    ensures |s| <= r <= 2 * |s|
    ensures r == |s| <==> forall i :: 0 <= i < |s| ==> s[i] <= '\U{FFFF}'
  {
    if s == [] then 0
    else
      var rest := Utf16Length(s[1..]);
      assert forall i :: 1 <= i < |s| ==> s[i] == s[1..][i - 1];
      (if s[0] <= '\U{FFFF}' then 1 else 2) + rest
  }
}

=== FILE: wrappers.dfy ===
/** The optional-value datatype used for JavaScript's null/undefined results. */
module Wrappers {

  datatype Option<+T> = None | Some(value: T) {

    /** The encapsulated value, or `default` when there is none (JavaScript's `x || default`
        when only null/undefined are in play). */
    function GetOr(default: T): T {
      match this
      case Some(v) => v
      case None => default
    }
  }
}
